=== FILE: README.md ===
# Campus Soru canteen assistant — a Dafny model of its brief and reply logic

Campus Soru is a Streamlit chat assistant for a college canteen. Before every
conversation it renders a hard-coded knowledge table (menu, timings, payment
methods, dietary options, weekday specials, contact details, facilities)
into a markdown "system prompt", and while answering it accumulates the
streamed reply chunk by chunk. This project models those two pieces of
`chatbot.py`:

- `Canteen`: the shape of the knowledge table, dictionary lookup
  (`table[key]`, with Python's `KeyError` as an error value), and the table
  the assistant ships with as a constant.
- `Strings`: the string operations the renderer uses — concatenation,
  `str.join`, decimal rendering of prices, and ASCII `upper`, `capitalize`,
  `title` and `replace`.
- `Sections`: the five loops that turn the table into text (menu, timings,
  payment methods, dietary options, facilities), as `MenuText`,
  `TimingsText`, `PaymentText`, `DietaryText` and `FacilitiesText`.
- `Prompt`: the f-string template that splices everything into one brief
  in a fixed order, and the error a malformed table produces.
  `Prompt.SystemPrompt` is `get_system_prompt` (chatbot.py:95-163).
- `Reply`: the streaming loop that keeps the non-empty chunk texts, shows
  the text so far after each one, and ends with the joined text or the
  `(no text)` placeholder.
- `Wrappers`: `Option` and `Result`.

Python dictionaries are modelled as sequences of key/value pairs in
insertion order. A lookup returns the first entry under its key. The clock
reading and the fixed persona and behaviour prose are parameters (`Clock`,
`Voice`).

The special-offers section always prints both the Wednesday and the Friday
offer, whatever the current day is. The model follows the code here: the
day-dependent promotion is left to the language model through the
behaviour rules (chatbot.py:158). It is not a property of the brief.

## Model

| member | source | states |
|---|---|---|
| Canteen.Lookup | chatbot.py:112 | `table[key]` gives nothing exactly when no entry has the key; otherwise it gives the value of an entry under that key |
| Canteen.LookupKeys | chatbot.py:138-143 | a lookup fails (Python's `KeyError`) exactly on a key that is not among the table's keys |
| Strings.Upper | chatbot.py:103 | `upper()` keeps the length and every letter, and leaves no lower-case letter |
| Strings.Capitalize | chatbot.py:111 | `capitalize()` makes the first character non-lower-case and the rest non-upper-case, keeping every letter |
| Strings.TitleMeaning | chatbot.py:118 | `title()` makes a letter upper case exactly when it starts a word (no cased character before it), keeping length and letters |
| Strings.JoinTerminated | chatbot.py:114 | a non-empty `sep.join(parts)` followed by one `sep` is every part followed by `sep`, in order |
| Strings.JoinStartsWithFirst | chatbot.py:146 | a joined string begins with its first part |
| Strings.DecimalRoundTrip | chatbot.py:106 | the decimal text of a price parses back to the same integer, negative prices included; it is canonical: no leading zero except in `0`, and no `-0` |
| Strings.DecimalUnique | chatbot.py:106 | the decimal text is the only canonical spelling of its number: a canonical text that reads back as a price is that price's decimal text, so `₹20` can never be printed as `₹020` |
| Sections.ItemLineShape | chatbot.py:104-106 | a dish line starts with `- ` and the dish name, then `: ₹`, carries the price so that it reads back, then a space and ✅ exactly when the dish is available (❌ exactly when not), then a newline |
| Sections.MenuLayout | chatbot.py:101-106 | the menu is one header per category in table order, each followed directly by one line per dish in list order; an empty category keeps its header; the category blocks tile the menu, the first at the start and each next one right after the previous one's dishes |
| Sections.MenuHeaderCount | chatbot.py:102-103 | the menu has exactly as many header pieces as categories: no dish line is ever a header |
| Sections.BuildItems | chatbot.py:104-106 | the inner loop's text is the dish lines of the category, in order |
| Sections.BuildMenu | chatbot.py:101-106 | the nested loop builds exactly the menu text whose layout is given above |
| Sections.MealLinesSpec | chatbot.py:109-111 | the timings loop succeeds exactly when every non-`closed` entry is a span; it then gives one capitalised line per such entry in table order, and otherwise fails with `TypeError` at the first entry that is not a span |
| Sections.TimingsOutcome | chatbot.py:108-112 | the timings section renders exactly when every meal entry is a span and the `closed` key exists; otherwise the meal error comes first, then the missing-`closed` `KeyError` |
| Sections.TimingsLayout | chatbot.py:108-112 | a rendered timings section is one line per meal entry in table order, followed by the `Closed:` line as its last line |
| Sections.PaymentLineShape | chatbot.py:114 | a payment line names the method, then `: `, then `✅ Available` when the method is available and `❌ Not Available` when not; it ends there without a note, and otherwise ends with the note in parentheses |
| Sections.LabelsDistinct | chatbot.py:114 | an available method and an unavailable one with the same name never render the same line |
| Sections.PaymentTextShape | chatbot.py:114 | no methods give the empty text; otherwise the lines are newline-separated and the text never ends with a newline |
| Sections.TagLabelMeaning | chatbot.py:118 | a shown diet tag has each underscore turned into a space and title-cased words; every other letter is kept |
| Sections.DietLineItems | chatbot.py:118 | a dietary line lists its dishes in order separated by `", "` and ends with a newline; an empty list leaves nothing after `": "` |
| Sections.DietaryLayout | chatbot.py:116-118 | each dietary line appears whole in the section, in table order and back to back, and they fill it |
| Sections.FacilitiesShape | chatbot.py:146 | the facilities are bulleted with `- ` and newline-separated: the text plus one newline is every bullet newline-terminated, in order; no facilities give the empty text |
| Prompt.ResolveValidation | chatbot.py:108-143 | resolving the table fails exactly on a defective table, with its first defect in evaluation order: timings, then Wednesday, Friday, manager, email |
| Prompt.SystemPromptValidation | chatbot.py:95-163 | the brief fails exactly on a defective table, with that defect; the clock and the prose play no part |
| Prompt.CampusTableRenders | chatbot.py:14-89 | the table the assistant ships with renders, at any time |
| Prompt.SectionAt | chatbot.py:120-162 | each template section is its heading directly followed by its text, and it is never empty |
| Prompt.RenderOrder | chatbot.py:120-162 | the brief is the ten headings at strictly increasing positions, each followed directly by its text: persona, time, menu, timings, payment, dietary, specials, contact, facilities and rules, which end the brief |
| Prompt.TableInBrief | chatbot.py:101-146 | a rendered brief carries the table's own menu, timings, payment, dietary and facilities renderings, each right after its heading |
| Prompt.SpecialsInRender | chatbot.py:137-139 | under the special-offers heading come the Wednesday offer line and then, on the next line, the Friday offer line |
| Prompt.SpecialsWhateverTheDay | chatbot.py:137-139 | whatever the day, a rendered brief carries the table's Wednesday offer line right after the special-offers heading, followed directly by its Friday offer line |
| Prompt.RenderClock | chatbot.py:120-122 | two briefs that differ only in the clock agree everywhere except on the current-time line |
| Prompt.ClockOnlyTouchesTimeLine | chatbot.py:122 | the clock never decides whether a table renders, and two rendered briefs differ only on the current-time line |
| Reply.Kept | chatbot.py:282-283 | the kept chunks are the non-empty ones: never more than arrived, none empty, and every non-empty chunk is kept |
| Reply.KeptAppend | chatbot.py:281-283 | keeping respects arrival order: the chunks kept from a stream are those kept from its first part, followed by those kept from the rest |
| Reply.ConcatKept | chatbot.py:282-286 | dropping the empty chunks does not change the joined text |
| Reply.KeptEmpty | chatbot.py:282-286 | nothing is kept exactly when the stream carried no text |
| Reply.FinalReply | chatbot.py:286 | the reply is never empty: it is the stream's text, or the placeholder when the stream carried none |
| Reply.PlaceholderExactly | chatbot.py:286 | the reply is the placeholder exactly when the stream carried no text or carried the placeholder's own text |
| Reply.FinalReplyExamples | chatbot.py:280-286 | concrete streams: empty chunks contribute nothing, no separator is inserted, and a stream with no text gives `(no text)` |
| Reply.DisplaysGrow | chatbot.py:284 | with only non-empty chunks kept, each display strictly extends the one before |
| Reply.StreamReply | chatbot.py:280-286 | the loop's reply is the final reply; it shows one display per kept chunk, each the text so far, each strictly extending the one before, and the last one is the reply |

The second copy of the streaming loop (chatbot.py:304-310) is identical to
the first and is covered by the same members.

## Left out

- The Streamlit user interface: page setup, quick-query buttons, session state, chat history and reruns (chatbot.py:1-12 and 166-312 outside the streaming loop). It is presentation and I/O.
- The calls to the generative-AI client: creating the client and the chat, and `send_message_stream`. The stream is a parameter, given as the sequence of chunk texts, with a missing text shown as `""`. A stream that raises is not modelled. In the code it ends the turn with the exception: no placeholder is shown and no reply is stored (chatbot.py:281-287). The placeholder appears only for a stream that ends normally without text.
- Reading the clock in the Asia/Kolkata zone and formatting it with `strftime` (chatbot.py:91-99). The three formatted strings are the `Clock` parameter.
- The persona paragraph and the behaviour rules are fixed prose. They are the `Voice` parameter, and the model does not inspect their content.
- Strings.Upper: case mapping covers ASCII letters only. Python's Unicode mappings (for example `ß` becoming `SS`, which changes the length) are not modelled. Every other character is treated as uncased.
- Strings.Capitalize: ASCII only, for the same reason.
- Strings.TitleMeaning: ASCII only, for the same reason.
- Sections.ClosedText: a `closed` timings entry holding a span prints as its dictionary repr. The model writes the repr with single quotes around the raw strings. Python's repr escapes, and its quote choice for strings that contain quotes, backslashes or unprintable characters, are not modelled. The model also always shows `start` before `end` and nothing else, whereas Python's repr follows the stored dict's own key order and shows any further keys it holds.
- Sections.TimingsLayout: it places exactly one `Closed:` line, as the last line. A meal key spelled `Closed` would capitalise to the same text, so in the rendered string that line is unique only among the pieces, not as a substring.
- Entries of the wrong shape are ruled out by the datatypes rather than modelled as errors. This covers a missing top-level key (`menu`, `timings`, `payment_methods`, `dietary_options`, `specials`, `contact`, `facilities`), a dish without `item`, `price` or `available`, a non-integer price, a span without `start` or `end`, a payment entry without `method` or `available`, and a non-string dietary item. Python would raise `KeyError` or `TypeError` for these. Only the errors that a well-typed table can still raise are modelled: a missing key and a text meal entry.
- Repeated keys: a Python dict holds each key once. A literal that repeats a key keeps one entry, at the first position, with the last value. The model's tables are plain sequences of pairs, and nothing requires their keys to be distinct. For a table with a repeated key, the model renders every entry and looks up the first one. No Python dict behaves that way, so the model's results for such tables describe no Python dict. The tables written in chatbot.py have distinct keys.

=== FILE: canteen.dfy ===
/** The canteen knowledge table: the shape of the nested dictionary the
    assistant is grounded on. Every Python dictionary is an ordered sequence
    of key/value pairs, in insertion order. */
module Canteen {
  import opened Wrappers

  /** One dish of a meal category. */
  datatype MenuItem = MenuItem(item: string, price: int, available: bool)

  /** A value of the timings table: a meal's opening span, or the free-text
      note stored under the `closed` key. */
  datatype TimingValue = Span(start: string, end: string) | Note(text: string)

  /** One payment method; `note` is present only when the entry carries one. */
  datatype Payment = Payment(name: string, available: bool, note: Option<string>)

  datatype Knowledge = Knowledge(
    menu: seq<(string, seq<MenuItem>)>,      // meal category -> dishes
    timings: seq<(string, TimingValue)>,     // meal -> span, plus "closed" -> note
    payments: seq<Payment>,
    dietary: seq<(string, seq<string>)>,     // diet tag -> dish names
    specials: seq<(string, string)>,         // weekday -> offer
    contact: seq<(string, string)>,          // "manager" / "email" -> text
    facilities: seq<string>)

  /** The formatted wall-clock reading the brief is stamped with. */
  datatype Clock = Clock(day: string, date: string, time: string)

  /** Why a table cannot be rendered: a missing key (Python's KeyError), or
      a meal entry that is text where a span is indexed (TypeError). */
  datatype RenderError = MissingKey(table: string, key: string) | NotASpan(meal: string)

  /** Dictionary lookup `table[key]`: `None` exactly when the key is absent,
      otherwise the value of the first entry under that key. */
  function Lookup<V>(table: seq<(string, V)>, key: string): (r: Option<V>)
    ensures r.None? <==> forall i :: 0 <= i < |table| ==> table[i].0 != key
    ensures r.Some? ==> exists i :: 0 <= i < |table| && table[i] == (key, r.value)
  {
    if |table| == 0 then None
    else if table[0].0 == key then Some(table[0].1)
    else
      var r := Lookup(table[1..], key);
      assert forall i :: 0 < i < |table| ==> table[i] == table[1..][i - 1];
      r
  }

  /** The keys of a table, in table order. */
  function KeysOf<V>(table: seq<(string, V)>): (r: seq<string>)
    ensures |r| == |table|
    ensures forall i :: 0 <= i < |table| ==> r[i] == table[i].0
  {
    seq(|table|, i requires 0 <= i < |table| => table[i].0)
  }

  /** Lookup fails exactly on a key the table does not hold. */
  lemma LookupKeys<V>(table: seq<(string, V)>, key: string)
    ensures Lookup(table, key).None? <==> key !in KeysOf(table)
    ensures Lookup(table, key).Some? ==> (key, Lookup(table, key).value) in table
  {
  }

  /** The table the assistant ships with. */
  const CampusTable := Knowledge(
    [ ("breakfast", [
        MenuItem("Idli (3 pcs)", 20, true), MenuItem("Masala Dosa", 30, true),
        MenuItem("Plain Dosa", 25, true), MenuItem("Rava Dosa", 35, true),
        MenuItem("Pongal", 25, true), MenuItem("Vada (2 pcs)", 20, true),
        MenuItem("Upma", 20, true), MenuItem("Poori Masala", 30, true),
        MenuItem("Filter Coffee", 15, true), MenuItem("Tea", 10, true)]),
      ("lunch", [
        MenuItem("Full Meals (Unlimited)", 60, true), MenuItem("Mini Meals", 45, true),
        MenuItem("Sambar Rice", 40, true), MenuItem("Curd Rice", 35, true),
        MenuItem("Rasam Rice", 40, true), MenuItem("Lemon Rice", 35, true),
        MenuItem("Chapati (3 pcs) + Curry", 40, true), MenuItem("Parotta + Kurma", 45, true)]),
      ("snacks", [
        MenuItem("Samosa", 15, true), MenuItem("Bajji", 15, true), MenuItem("Bonda", 15, true),
        MenuItem("Masala Vadai", 20, true), MenuItem("Banana Baji", 10, true),
        MenuItem("Tea", 10, true), MenuItem("Coffee", 15, true)]),
      ("dinner", [
        MenuItem("Chapati (4 pcs) + Kurma", 50, true), MenuItem("Parotta + Curry", 50, true),
        MenuItem("Fried Rice", 60, true), MenuItem("Noodles", 60, true),
        MenuItem("Dosa", 30, true), MenuItem("Idli", 25, true)]) ],
    [ ("breakfast", Span("07:00", "09:30")), ("lunch", Span("12:00", "14:30")),
      ("snacks", Span("16:00", "18:00")), ("dinner", Span("19:00", "21:30")),
      ("closed", Note("Sundays and Public Holidays")) ],
    [ Payment("Cash", true, None), Payment("UPI (GPay, PhonePe, Paytm)", true, None),
      Payment("Credit/Debit Cards", false, None) ],
    [ ("vegan", ["Idli", "Plain Dosa", "Sambar Rice", "Pongal", "Upma", "Lemon Rice"]),
      ("jain", ["Curd Rice", "Plain Rice", "Chapati (without onion/garlic)"]),
      ("high_protein", ["Full Meals", "Idli", "Pongal"]),
      ("low_calorie", ["Idli", "Upma", "Curd Rice"]) ],
    [ ("wednesday", "Pongal Special at \U{20B9}20"), ("friday", "Masala Dosa Special at \U{20B9}25") ],
    [ ("manager", "Ravi Kumar - +91-9876543210"), ("email", "canteen@college.edu.in") ],
    [ "Seating capacity: 200 students", "AC dining area", "Free drinking water",
      "Clean and hygienic kitchen", "Weekly menu rotation" ])
}

=== FILE: prompt.dfy ===
/** The system brief: every section of the knowledge table spliced into a
    fixed template, in a fixed order, after a persona statement and the
    current time, and before the behaviour rules. */
module Prompt {
  import opened Wrappers
  import opened Strings
  import opened Canteen
  import opened Sections

  /** The fixed prose around the table: who the assistant is, and the
      numbered behaviour rules with the closing reminder. */
  datatype Voice = Voice(persona: string, rules: string)

  /** The heading opening each of the ten sections, in order: persona (no
      heading), current time, menu, timings, payment methods, dietary
      options, special offers, contact, facilities, behaviour rules. */
  const Headings: seq<string> := [
    "",
    "**CURRENT DATE & TIME**: ",
    "**CANTEEN INFORMATION**:\n\n**MENU**:",
    "**TIMINGS**:\n",
    "**PAYMENT METHODS**:\n",
    "**DIETARY OPTIONS**:\n",
    "**SPECIAL OFFERS**:\n",
    "**CONTACT**:\n",
    "**FACILITIES**:\n",
    "**YOUR BEHAVIOR**:\n"]

  const Blank := "\n\n"

  /** The one place the clock reaches the brief. */
  function TimeLine(clock: Clock): string
  {
    clock.day + ", " + clock.date + " at " + clock.time + " (IST)" + Blank
  }

  function WednesdayLine(offer: string): string
  {
    "- Wednesday: " + offer + "\n"
  }

  function FridayLine(offer: string): string
  {
    "- Friday: " + offer + "\n"
  }

  /** Both promotional weekdays, whatever the current one is. */
  function SpecialsBlock(wednesday: string, friday: string): string
  {
    WednesdayLine(wednesday) + FridayLine(friday) + "\n"
  }

  function ContactBlock(manager: string, email: string): string
  {
    "- Manager: " + manager + "\n- Email: " + email + "\n" + "\n"
  }

  /** The texts the template splices in: the rendered sections and the
      looked-up specials and contact entries. */
  datatype Fields = Fields(
    menu: string, timings: string, payment: string, dietary: string,
    wednesday: string, friday: string, manager: string, email: string,
    facilities: string)

  /** The text under each heading. */
  function Bodies(clock: Clock, voice: Voice, f: Fields): seq<string>
  {
    [ voice.persona + Blank,
      TimeLine(clock),
      f.menu + Blank,
      f.timings + Blank,
      f.payment + Blank,
      f.dietary + Blank,
      SpecialsBlock(f.wednesday, f.friday),
      ContactBlock(f.manager, f.email),
      f.facilities + Blank,
      voice.rules ]
  }

  /** Each heading followed by its text. */
  function SectionsOf(bodies: seq<string>): seq<string>
    requires |bodies| == |Headings|
  {
    seq(|Headings|, i requires 0 <= i < |Headings| => Headings[i] + bodies[i])
  }

  /** The template filled in. */
  function Render(clock: Clock, voice: Voice, f: Fields): string
  {
    Concat(SectionsOf(Bodies(clock, voice, f)))
  }

  /** `table[key]` on one of the flat sub-tables, as a result. */
  function Fetch(table: seq<(string, string)>, name: string, key: string): Result<string, RenderError>
  {
    match Lookup(table, key)
    case None => Err(MissingKey(name, key))
    case Some(v) => Ok(v)
  }

  /** Everything the template looks up, or the error Python would raise
      first: timings are rendered before the template, whose lookups run
      left to right. */
  function Resolve(k: Knowledge): Result<Fields, RenderError>
  {
    var timings := TimingsText(k.timings);
    if timings.Err? then Err(timings.error) else
    var wednesday := Fetch(k.specials, "specials", "wednesday");
    if wednesday.Err? then Err(wednesday.error) else
    var friday := Fetch(k.specials, "specials", "friday");
    if friday.Err? then Err(friday.error) else
    var manager := Fetch(k.contact, "contact", "manager");
    if manager.Err? then Err(manager.error) else
    var email := Fetch(k.contact, "contact", "email");
    if email.Err? then Err(email.error) else
    Ok(Fields(MenuText(k.menu), timings.value, PaymentText(k.payments), DietaryText(k.dietary),
              wednesday.value, friday.value, manager.value, email.value,
              FacilitiesText(k.facilities)))
  }

  /** The brief, or the error that stops it. */
  function SystemPrompt(k: Knowledge, clock: Clock, voice: Voice): Result<string, RenderError>
  {
    match Resolve(k)
    case Err(e) => Err(e)
    case Ok(f) => Ok(Render(clock, voice, f))
  }

  // ---------------------------------------------------------------------
  // Validation
  // ---------------------------------------------------------------------

  /** The first defect of a table, in the order the renderer meets them, or
      `None` for a table that renders. Stated on the table itself, not on
      the rendered text. */
  function Problem(k: Knowledge): Option<RenderError>
  {
    if !MealsAreSpans(k.timings) then Some(NotASpan(k.timings[FirstNonSpan(k.timings)].0))
    else if ClosedKey !in KeysOf(k.timings) then Some(MissingKey("timings", ClosedKey))
    else if "wednesday" !in KeysOf(k.specials) then Some(MissingKey("specials", "wednesday"))
    else if "friday" !in KeysOf(k.specials) then Some(MissingKey("specials", "friday"))
    else if "manager" !in KeysOf(k.contact) then Some(MissingKey("contact", "manager"))
    else if "email" !in KeysOf(k.contact) then Some(MissingKey("contact", "email"))
    else None
  }

  /** `table[key]` fails exactly on a missing key, with a `KeyError` naming it. */
  lemma FetchOutcome(table: seq<(string, string)>, name: string, key: string)
    ensures Fetch(table, name, key).Err? <==> key !in KeysOf(table)
    ensures Fetch(table, name, key).Err? ==> Fetch(table, name, key).error == MissingKey(name, key)
    ensures Fetch(table, name, key).Ok? ==> Fetch(table, name, key).value == Lookup(table, key).value
  {
    LookupKeys(table, key);
  }

  /** Resolving the table fails exactly on a defective table, with that
      table's first defect. */
  lemma ResolveValidation(k: Knowledge)
    ensures Resolve(k).Err? <==> Problem(k).Some?
    ensures Resolve(k).Err? ==> Resolve(k).error == Problem(k).value
  {
    TimingsOutcome(k.timings);
    FetchOutcome(k.specials, "specials", "wednesday");
    FetchOutcome(k.specials, "specials", "friday");
    FetchOutcome(k.contact, "contact", "manager");
    FetchOutcome(k.contact, "contact", "email");
    var timings := TimingsText(k.timings);
    if timings.Err? {
      assert Resolve(k) == Err(timings.error);
      assert Problem(k) == Some(timings.error);
    } else {
      assert MealsAreSpans(k.timings) && ClosedKey in KeysOf(k.timings);
    }
  }

  /** The brief fails exactly on a defective table, with that table's first
      defect; the clock and the prose play no part in it. */
  lemma SystemPromptValidation(k: Knowledge, clock: Clock, voice: Voice)
    ensures SystemPrompt(k, clock, voice).Err? <==> Problem(k).Some?
    ensures SystemPrompt(k, clock, voice).Err? ==> SystemPrompt(k, clock, voice).error == Problem(k).value
  {
    ResolveValidation(k);
  }

  /** The table the assistant ships with renders, at any time. */
  lemma CampusTableRenders(clock: Clock, voice: Voice)
    ensures SystemPrompt(CampusTable, clock, voice).Ok?
  {
    var t := CampusTable.timings;
    assert MealsAreSpans(t) by {
      forall i | 0 <= i < |t| && t[i].0 != ClosedKey
        ensures t[i].1.Span?
      {
        assert i < 4 by { assert t[4].0 == ClosedKey; }
      }
    }
    assert t[0].0 != ClosedKey && t[1].0 != ClosedKey && t[2].0 != ClosedKey && t[3].0 != ClosedKey;
    assert KeysOf(t)[4] == ClosedKey;
    assert KeysOf(CampusTable.specials)[0] == "wednesday" && KeysOf(CampusTable.specials)[1] == "friday";
    assert KeysOf(CampusTable.contact)[0] == "manager" && KeysOf(CampusTable.contact)[1] == "email";
    SystemPromptValidation(CampusTable, clock, voice);
  }

  // ---------------------------------------------------------------------
  // Layout
  // ---------------------------------------------------------------------

  /** Where section `i` starts in the filled-in template. */
  function Start(clock: Clock, voice: Voice, f: Fields, i: nat): nat
    requires i <= |Headings|
  {
    StartOf(SectionsOf(Bodies(clock, voice, f)), i)
  }

  /** Section `i` is its heading directly followed by its text, and it is
      not empty, so the next section starts strictly later. */
  lemma SectionAt(clock: Clock, voice: Voice, f: Fields, i: nat)
    requires i < |Headings|
    ensures var r := Render(clock, voice, f);
      && Occurs(Headings[i], r, Start(clock, voice, f, i))
      && Occurs(Bodies(clock, voice, f)[i], r, Start(clock, voice, f, i) + |Headings[i]|)
      && Start(clock, voice, f, i) < Start(clock, voice, f, i + 1)
  {
    var bodies := Bodies(clock, voice, f);
    assert |bodies[i]| > 0 || |Headings[i]| > 0 by {
      if i == 0 { assert |bodies[0]| > 0; } else { assert |Headings[i]| > 0; }
    }
    var parts := SectionsOf(bodies);
    PieceOccurs(parts, i);
    OccursSplit(Headings[i], bodies[i], Render(clock, voice, f), StartOf(parts, i));
  }

  /** The filled-in template is the ten section headings at strictly
      increasing positions, each followed directly by its text: the persona
      first, then the time line, the menu, timings, payment and dietary
      texts, both specials, the contact entries, the facilities, and the
      rules as the very end. */
  lemma RenderOrder(clock: Clock, voice: Voice, f: Fields)
    ensures var r := Render(clock, voice, f);
      var bodies := Bodies(clock, voice, f);
      && Start(clock, voice, f, 0) == 0
      && (forall i :: 0 <= i < |Headings| ==> Start(clock, voice, f, i) < Start(clock, voice, f, i + 1))
      && (forall i :: 0 <= i < |Headings| ==> Occurs(Headings[i], r, Start(clock, voice, f, i)))
      && (forall i :: 0 <= i < |Headings| ==> Occurs(bodies[i], r, Start(clock, voice, f, i) + |Headings[i]|))
      && Start(clock, voice, f, |Headings|) == |r|
  {
    forall i | 0 <= i < |Headings|
      ensures Occurs(Headings[i], Render(clock, voice, f), Start(clock, voice, f, i))
      ensures Occurs(Bodies(clock, voice, f)[i], Render(clock, voice, f), Start(clock, voice, f, i) + |Headings[i]|)
      ensures Start(clock, voice, f, i) < Start(clock, voice, f, i + 1)
    {
      SectionAt(clock, voice, f, i);
    }
    var parts := SectionsOf(Bodies(clock, voice, f));
    assert parts[..0] == [];
    assert parts[..|parts|] == parts;
  }

  /** The filled-in template carries the Wednesday offer and, on the next
      line, the Friday offer, right under the special-offers heading. */
  lemma SpecialsInRender(clock: Clock, voice: Voice, f: Fields)
    ensures var at := SpecialsStart(clock, voice, f);
      && Occurs(WednesdayLine(f.wednesday), Render(clock, voice, f), at)
      && Occurs(FridayLine(f.friday), Render(clock, voice, f), at + |WednesdayLine(f.wednesday)|)
  {
    var r := Render(clock, voice, f);
    var at := SpecialsStart(clock, voice, f);
    SectionAt(clock, voice, f, 6);
    assert Bodies(clock, voice, f)[6] == WednesdayLine(f.wednesday) + (FridayLine(f.friday) + "\n");
    OccursSplit(WednesdayLine(f.wednesday), FridayLine(f.friday) + "\n", r, at);
    OccursSplit(FridayLine(f.friday), "\n", r, at + |WednesdayLine(f.wednesday)|);
  }

  /** A brief that renders is the template filled with the resolved fields,
      the specials among them being the table's entries. */
  lemma RenderedFrom(k: Knowledge, clock: Clock, voice: Voice)
    ensures SystemPrompt(k, clock, voice).Ok? ==>
      && Resolve(k).Ok?
      && SystemPrompt(k, clock, voice).value == Render(clock, voice, Resolve(k).value)
      && Resolve(k).value.wednesday == Lookup(k.specials, "wednesday").value
      && Resolve(k).value.friday == Lookup(k.specials, "friday").value
  {
  }

  /** Where the special offers start in a filled-in template: right after
      their heading. */
  function SpecialsStart(clock: Clock, voice: Voice, f: Fields): nat
  {
    BodyStart(clock, voice, f, 6)
  }

  /** A rendered brief carries the table's Wednesday offer line right
      after the special-offers heading. */
  lemma WednesdayOffer(k: Knowledge, clock: Clock, voice: Voice)
    ensures SystemPrompt(k, clock, voice).Ok? ==>
      && Resolve(k).Ok? && Lookup(k.specials, "wednesday").Some?
      && Occurs(WednesdayLine(Lookup(k.specials, "wednesday").value), SystemPrompt(k, clock, voice).value,
                SpecialsStart(clock, voice, Resolve(k).value))
  {
    if SystemPrompt(k, clock, voice).Ok? {
      RenderedFrom(k, clock, voice);
      SpecialsInRender(clock, voice, Resolve(k).value);
    }
  }

  /** A rendered brief carries the table's Friday offer line right after
      the Wednesday one. */
  lemma FridayOffer(k: Knowledge, clock: Clock, voice: Voice)
    ensures SystemPrompt(k, clock, voice).Ok? ==>
      && Resolve(k).Ok? && Lookup(k.specials, "wednesday").Some? && Lookup(k.specials, "friday").Some?
      && Occurs(FridayLine(Lookup(k.specials, "friday").value), SystemPrompt(k, clock, voice).value,
                SpecialsStart(clock, voice, Resolve(k).value) + |WednesdayLine(Lookup(k.specials, "wednesday").value)|)
  {
    if SystemPrompt(k, clock, voice).Ok? {
      RenderedFrom(k, clock, voice);
      SpecialsInRender(clock, voice, Resolve(k).value);
    }
  }

  /** Whatever the day, a rendered brief carries the Wednesday offer of the
      table and, on the next line, its Friday offer. */
  lemma SpecialsWhateverTheDay(k: Knowledge, clock: Clock, voice: Voice)
    ensures SystemPrompt(k, clock, voice).Ok? ==>
      && Resolve(k).Ok? && Lookup(k.specials, "wednesday").Some? && Lookup(k.specials, "friday").Some?
      && Occurs(WednesdayLine(Lookup(k.specials, "wednesday").value), SystemPrompt(k, clock, voice).value,
                SpecialsStart(clock, voice, Resolve(k).value))
      && Occurs(FridayLine(Lookup(k.specials, "friday").value), SystemPrompt(k, clock, voice).value,
                SpecialsStart(clock, voice, Resolve(k).value) + |WednesdayLine(Lookup(k.specials, "wednesday").value)|)
  {
    WednesdayOffer(k, clock, voice);
    FridayOffer(k, clock, voice);
  }

  /** Where the text of section `i` starts: right after its heading. */
  function BodyStart(clock: Clock, voice: Voice, f: Fields, i: nat): nat
    requires i < |Headings|
  {
    Start(clock, voice, f, i) + |Headings[i]|
  }

  /** A section whose text is `text` and a blank line carries `text` right
      after its heading. */
  lemma TextAt(clock: Clock, voice: Voice, f: Fields, i: nat, text: string)
    requires i < |Headings| && Bodies(clock, voice, f)[i] == text + Blank
    ensures Occurs(text, Render(clock, voice, f), BodyStart(clock, voice, f, i))
  {
    SectionAt(clock, voice, f, i);
    OccursSplit(text, Blank, Render(clock, voice, f), BodyStart(clock, voice, f, i));
  }

  /** The filled-in template carries the menu, timings, payment, dietary and
      facilities texts, each right after its heading. */
  lemma TextsInRender(clock: Clock, voice: Voice, f: Fields)
    ensures Occurs(f.menu, Render(clock, voice, f), BodyStart(clock, voice, f, 2))
    ensures Occurs(f.timings, Render(clock, voice, f), BodyStart(clock, voice, f, 3))
    ensures Occurs(f.payment, Render(clock, voice, f), BodyStart(clock, voice, f, 4))
    ensures Occurs(f.dietary, Render(clock, voice, f), BodyStart(clock, voice, f, 5))
    ensures Occurs(f.facilities, Render(clock, voice, f), BodyStart(clock, voice, f, 8))
  {
    TextAt(clock, voice, f, 2, f.menu);
    TextAt(clock, voice, f, 3, f.timings);
    TextAt(clock, voice, f, 4, f.payment);
    TextAt(clock, voice, f, 5, f.dietary);
    TextAt(clock, voice, f, 8, f.facilities);
  }

  /** A table that resolves hands the template its own section renderings. */
  lemma ResolvedSections(k: Knowledge)
    ensures Resolve(k).Ok? ==>
      && TimingsText(k.timings).Ok?
      && Resolve(k).value.menu == MenuText(k.menu)
      && Resolve(k).value.timings == TimingsText(k.timings).value
      && Resolve(k).value.payment == PaymentText(k.payments)
      && Resolve(k).value.dietary == DietaryText(k.dietary)
      && Resolve(k).value.facilities == FacilitiesText(k.facilities)
  {
  }

  /** A rendered brief carries the table's menu, timings, payment, dietary
      and facilities renderings, each right after its own heading. */
  lemma TableInBrief(k: Knowledge, clock: Clock, voice: Voice)
    ensures SystemPrompt(k, clock, voice).Ok? ==>
      && Resolve(k).Ok? && TimingsText(k.timings).Ok?
      && Occurs(MenuText(k.menu), SystemPrompt(k, clock, voice).value, BodyStart(clock, voice, Resolve(k).value, 2))
      && Occurs(TimingsText(k.timings).value, SystemPrompt(k, clock, voice).value, BodyStart(clock, voice, Resolve(k).value, 3))
      && Occurs(PaymentText(k.payments), SystemPrompt(k, clock, voice).value, BodyStart(clock, voice, Resolve(k).value, 4))
      && Occurs(DietaryText(k.dietary), SystemPrompt(k, clock, voice).value, BodyStart(clock, voice, Resolve(k).value, 5))
      && Occurs(FacilitiesText(k.facilities), SystemPrompt(k, clock, voice).value, BodyStart(clock, voice, Resolve(k).value, 8))
  {
    if SystemPrompt(k, clock, voice).Ok? {
      RenderedFrom(k, clock, voice);
      ResolvedSections(k);
      TextsInRender(clock, voice, Resolve(k).value);
    }
  }

  /** Two filled-in templates that differ only in the clock agree
      everywhere except on the current-time line. */
  lemma RenderClock(c1: Clock, c2: Clock, voice: Voice, f: Fields)
    ensures exists before, after ::
      && Render(c1, voice, f) == before + TimeLine(c1) + after
      && Render(c2, voice, f) == before + TimeLine(c2) + after
  {
    var p1 := SectionsOf(Bodies(c1, voice, f));
    var p2 := SectionsOf(Bodies(c2, voice, f));
    ConcatAt(p1, 1);
    ConcatAt(p2, 1);
    assert p1[..1] == p2[..1];
    assert p1[2..] == p2[2..];
    var before := Concat(p1[..1]) + Headings[1];
    var after := Concat(p1[2..]);
    assert Render(c1, voice, f) == before + TimeLine(c1) + after;
    assert Render(c2, voice, f) == before + TimeLine(c2) + after;
  }

  /** Two clocks give the same outcome, and two rendered briefs agree
      everywhere except on the current-time line. */
  lemma ClockOnlyTouchesTimeLine(k: Knowledge, c1: Clock, c2: Clock, voice: Voice)
    ensures SystemPrompt(k, c1, voice).Ok? <==> SystemPrompt(k, c2, voice).Ok?
    ensures SystemPrompt(k, c1, voice).Err? ==> SystemPrompt(k, c1, voice) == SystemPrompt(k, c2, voice)
    ensures SystemPrompt(k, c1, voice).Ok? ==>
      exists before, after ::
        && SystemPrompt(k, c1, voice).value == before + TimeLine(c1) + after
        && SystemPrompt(k, c2, voice).value == before + TimeLine(c2) + after
  {
    if Resolve(k).Ok? {
      var f := Resolve(k).value;
      assert SystemPrompt(k, c1, voice).value == Render(c1, voice, f);
      assert SystemPrompt(k, c2, voice).value == Render(c2, voice, f);
      RenderClock(c1, c2, voice, f);
    }
  }
}

=== FILE: reply.dfy ===
/** Accumulating a streamed reply: the non-empty chunk texts, in arrival
    order, joined with nothing between them, and a fixed placeholder when
    the stream produced no text at all. */
module Reply {
  import opened Strings

  /** The reply shown when the stream carried no text. */
  const Placeholder := "(no text)"

  /** The chunk texts that are kept: the non-empty ones, in arrival order. */
  function Kept(chunks: seq<string>): (r: seq<string>)
    ensures |r| <= |chunks|
    ensures forall i :: 0 <= i < |r| ==> r[i] != ""
    ensures forall x :: x in r <==> x in chunks && x != ""
  {
    if |chunks| == 0 then []
    else
      var last := chunks[|chunks| - 1];
      var init := chunks[..|chunks| - 1];
      assert chunks == init + [last];
      if last == "" then Kept(init) else Kept(init) + [last]
  }

  /** Keeping respects arrival order: what is kept from a stream is what is
      kept from its first part followed by what is kept from the rest. */
  lemma {:induction false} KeptAppend(a: seq<string>, b: seq<string>)
    ensures Kept(a + b) == Kept(a) + Kept(b)
    decreases |b|
  {
    if |b| == 0 {
      assert a + b == a;
    } else {
      var init := b[..|b| - 1];
      assert (a + b)[..|a + b| - 1] == a + init;
      KeptAppend(a, init);
    }
  }

  /** Dropping the empty chunks does not change the concatenation. */
  lemma {:induction false} ConcatKept(chunks: seq<string>)
    ensures Concat(Kept(chunks)) == Concat(chunks)
    decreases |chunks|
  {
    if |chunks| > 0 {
      var init := chunks[..|chunks| - 1];
      var last := chunks[|chunks| - 1];
      ConcatKept(init);
      if last != "" {
        ConcatSnoc(Kept(init), last);
      }
    }
  }

  /** Nothing is kept exactly when the stream carried no text. */
  lemma KeptEmpty(chunks: seq<string>)
    ensures Kept(chunks) == [] <==> Concat(chunks) == ""
  {
    ConcatKept(chunks);
    if Kept(chunks) != [] {
      ConcatNonEmpty(Kept(chunks), 0);
    }
  }

  /** The final reply: the stream's text, or the placeholder when it has
      none; never empty. */
  function FinalReply(chunks: seq<string>): (r: string)
    ensures r != ""
    ensures Concat(chunks) == "" ==> r == Placeholder
    ensures Concat(chunks) != "" ==> r == Concat(chunks)
  {
    KeptEmpty(chunks);
    ConcatKept(chunks);
    if Kept(chunks) != [] then Concat(Kept(chunks)) else Placeholder
  }

  /** The reply is the placeholder exactly when the stream carried no text,
      or carried the placeholder's own text. */
  lemma PlaceholderExactly(chunks: seq<string>)
    ensures FinalReply(chunks) == Placeholder <==> Concat(chunks) == "" || Concat(chunks) == Placeholder
  {
  }

  /** Concrete streams: empty chunks contribute nothing, no separator is
      inserted, and a stream with no text gives the placeholder. */
  lemma FinalReplyExamples()
    ensures FinalReply(["Hi", "", " there"]) == "Hi there"
    ensures FinalReply(["Hi", " there"]) == "Hi there"
    ensures FinalReply([]) == Placeholder
    ensures FinalReply(["", ""]) == Placeholder
  {
    assert Concat(["Hi", "", " there"]) == "Hi there" by {
      assert ["Hi", "", " there"][..2] == ["Hi", ""];
      assert ["Hi", ""][..1] == ["Hi"];
      assert ["Hi"][..0] == [];
    }
    assert Concat(["Hi", " there"]) == "Hi there" by {
      assert ["Hi", " there"][..1] == ["Hi"];
      assert ["Hi"][..0] == [];
    }
    assert Concat(["", ""]) == "" by {
      assert ["", ""][..1] == [""];
      assert [""][..0] == [];
    }
  }

  /** `s` is a strict prefix of `t`: `t` extends it by at least one character. */
  predicate StrictPrefix(s: string, t: string)
  {
    |s| < |t| && t[..|s|] == s
  }

  /** The texts shown while the kept list grows: after each kept chunk, the
      concatenation of the kept chunks so far. */
  function Displays(kept: seq<string>): (r: seq<string>)
    ensures |r| == |kept|
  {
    seq(|kept|, j requires 0 <= j < |kept| => Concat(kept[..j + 1]))
  }

  lemma DisplaysSnoc(kept: seq<string>, text: string)
    ensures Displays(kept + [text]) == Displays(kept) + [Concat(kept + [text])]
  {
    var longer := kept + [text];
    forall j | 0 <= j < |kept|
      ensures Displays(longer)[j] == Displays(kept)[j]
    {
      assert longer[..j + 1] == kept[..j + 1];
    }
    assert longer[..|kept| + 1] == longer;
  }

  /** With only non-empty chunks kept, each display extends the one before
      by the newly kept chunk. */
  lemma DisplaysGrow(kept: seq<string>)
    requires forall i :: 0 <= i < |kept| ==> kept[i] != ""
    ensures forall i :: 0 < i < |kept| ==> StrictPrefix(Displays(kept)[i - 1], Displays(kept)[i])
  {
    forall i | 0 < i < |kept|
      ensures StrictPrefix(Displays(kept)[i - 1], Displays(kept)[i])
    {
      assert kept[..i + 1] == kept[..i] + [kept[i]];
      ConcatSnoc(kept[..i], kept[i]);
    }
  }

  /** The streaming loop as written: each chunk with text is appended to the
      kept list and the text so far is shown again; after the stream ends
      the kept texts are joined, or the placeholder is used. Every display
      shows the text so far, and each one extends the one before. */
  method StreamReply(stream: seq<string>) returns (reply: string, shown: seq<string>)
    ensures reply == FinalReply(stream)
    ensures |shown| == |Kept(stream)|
    ensures forall i :: 0 <= i < |shown| ==> shown[i] == Concat(Kept(stream)[..i + 1])
    ensures forall i :: 0 < i < |shown| ==> StrictPrefix(shown[i - 1], shown[i])
    ensures |shown| > 0 ==> shown[|shown| - 1] == reply
  {
    var chunks: seq<string> := [];
    shown := [];
    var i := 0;
    while i < |stream|
      invariant i <= |stream|
      invariant chunks == Kept(stream[..i])
      invariant shown == Displays(chunks)
    {
      assert stream[..i + 1][..i] == stream[..i];
      if stream[i] != "" {
        DisplaysSnoc(chunks, stream[i]);
        chunks := chunks + [stream[i]];
        shown := shown + [Concat(chunks)];
      }
      i := i + 1;
    }
    assert stream[..i] == stream;
    DisplaysGrow(chunks);
    ConcatKept(stream);
    KeptEmpty(stream);
    assert |chunks| > 0 ==> chunks[..|chunks|] == chunks;
    reply := if |chunks| > 0 then Concat(chunks) else Placeholder;
  }
}

=== FILE: sections.dfy ===
/** The five table-driven sections of the brief: menu, timings, payment
    methods, dietary options and facilities. */
module Sections {
  import opened Wrappers
  import opened Strings
  import opened Canteen

  const Rupee := "\U{20B9}"
  const Tick := '\U{2705}'
  const Cross := '\U{274C}'

  // ---------------------------------------------------------------------
  // Menu
  // ---------------------------------------------------------------------

  /** The availability marker of a dish. */
  function Marker(available: bool): string
  {
    if available then [Tick] else [Cross]
  }

  /** The header opening a meal category: blank line, upper-cased name in
      bold, colon, newline. */
  function Header(meal: string): string
  {
    "\n**" + Upper(meal) + "**:\n"
  }

  /** `- <item>: ₹<price> <marker>` and a newline. */
  function ItemLine(it: MenuItem): string
  {
    "- " + it.item + ": " + Rupee + Decimal(it.price) + " " + Marker(it.available) + "\n"
  }

  /** A dish line names the dish, then `: ₹`, carries its price in a form
      that reads back, and ends with a space and the tick exactly when the
      dish is available. */
  lemma ItemLineShape(it: MenuItem)
    ensures var line := ItemLine(it);
      && |line| == |it.item| + |Decimal(it.price)| + 8
      && line[..2] == "- " && line[2..2 + |it.item|] == it.item
      && line[|it.item| + 2..|it.item| + 5] == ": " + Rupee
      && ParseDecimal(line[|it.item| + 5..|line| - 3]) == Some(it.price)
      && (line[|line| - 2] == Tick <==> it.available)
      && line[|line| - 3] == ' '
      && (line[|line| - 2] == Cross <==> !it.available)
      && line[|line| - 1] == '\n'
  {
    var line := ItemLine(it);
    assert line == ("- " + it.item) + (": " + Rupee) + Decimal(it.price) + " " + Marker(it.available) + "\n";
    assert line[|it.item| + 2..|it.item| + 5] == ": " + Rupee;
    assert line[|it.item| + 5..|line| - 3] == Decimal(it.price);
    DecimalRoundTrip(it.price);
  }

  function ItemLines(items: seq<MenuItem>): seq<string>
  {
    seq(|items|, j requires 0 <= j < |items| => ItemLine(items[j]))
  }

  /** What one pass of the outer menu loop appends. */
  function CategoryPieces(category: (string, seq<MenuItem>)): seq<string>
  {
    [Header(category.0)] + ItemLines(category.1)
  }

  /** The pieces the menu loop appends, in order. */
  function MenuPieces(menu: seq<(string, seq<MenuItem>)>): seq<string>
  {
    if |menu| == 0 then [] else MenuPieces(menu[..|menu| - 1]) + CategoryPieces(menu[|menu| - 1])
  }

  /** The menu section. */
  function MenuText(menu: seq<(string, seq<MenuItem>)>): string
  {
    Concat(MenuPieces(menu))
  }

  function TotalItems(menu: seq<(string, seq<MenuItem>)>): nat
  {
    if |menu| == 0 then 0 else TotalItems(menu[..|menu| - 1]) + |menu[|menu| - 1].1|
  }

  /** Where the block of category `i` starts among the menu pieces: one
      header per earlier category plus all their dishes. */
  function Offset(menu: seq<(string, seq<MenuItem>)>, i: nat): nat
    requires i <= |menu|
  {
    i + TotalItems(menu[..i])
  }

  /** `pieces` holds, from index `o`, the header of `category` followed by one
      line per dish, in list order. */
  predicate PlacedAt(pieces: seq<string>, o: nat, category: (string, seq<MenuItem>))
  {
    && o + 1 + |category.1| <= |pieces|
    && pieces[o] == Header(category.0)
    && forall j :: 0 <= j < |category.1| ==> pieces[o + 1 + j] == ItemLine(category.1[j])
  }

  /** Consecutive category blocks are adjacent: no piece between them. */
  lemma OffsetStep(menu: seq<(string, seq<MenuItem>)>, i: nat)
    requires i < |menu|
    ensures Offset(menu, i + 1) == Offset(menu, i) + 1 + |menu[i].1|
  {
    assert menu[..i + 1][..i] == menu[..i];
  }

  /** The menu is exactly one header per category, in table order, each
      followed by exactly its dishes in list order; an empty category
      still has its header. The category blocks tile the pieces: the first
      starts at 0, each next one right after the previous one, and the last
      one ends the menu. */
  lemma MenuLayout(menu: seq<(string, seq<MenuItem>)>)
    ensures |MenuPieces(menu)| == |menu| + TotalItems(menu)
    ensures Offset(menu, |menu|) == |MenuPieces(menu)|
    ensures forall i :: 0 <= i < |menu| ==> PlacedAt(MenuPieces(menu), Offset(menu, i), menu[i])
    ensures Offset(menu, 0) == 0
    ensures forall i :: 0 <= i < |menu| ==> Offset(menu, i + 1) == Offset(menu, i) + 1 + |menu[i].1|
  {
    BlocksPlaced(menu);
    assert menu[..0] == [];
    forall i | 0 <= i < |menu|
      ensures Offset(menu, i + 1) == Offset(menu, i) + 1 + |menu[i].1|
    {
      OffsetStep(menu, i);
    }
  }

  /** Each category block sits at its offset among the menu pieces, and the
      offset past the last category is the number of pieces. */
  lemma {:induction false} BlocksPlaced(menu: seq<(string, seq<MenuItem>)>)
    ensures |MenuPieces(menu)| == |menu| + TotalItems(menu)
    ensures Offset(menu, |menu|) == |MenuPieces(menu)|
    ensures forall i :: 0 <= i < |menu| ==> PlacedAt(MenuPieces(menu), Offset(menu, i), menu[i])
    decreases |menu|
  {
    assert menu[..|menu|] == menu;
    if |menu| > 0 {
      var n := |menu|;
      var init := menu[..n - 1];
      BlocksPlaced(init);
      var pieces := MenuPieces(menu);
      var before := MenuPieces(init);
      assert pieces == before + CategoryPieces(menu[n - 1]);
      forall i | 0 <= i < n
        ensures PlacedAt(pieces, Offset(menu, i), menu[i])
      {
        if i < n - 1 {
          assert init[..i] == menu[..i];
          assert Offset(menu, i) == Offset(init, i);
          assert PlacedAt(before, Offset(init, i), init[i]);
        } else {
          assert Offset(menu, i) == |before|;
        }
      }
    }
  }

  predicate IsHeader(piece: string)
  {
    |piece| > 0 && piece[0] == '\n'
  }

  function HeaderCount(pieces: seq<string>): nat
  {
    if |pieces| == 0 then 0
    else HeaderCount(pieces[..|pieces| - 1]) + (if IsHeader(pieces[|pieces| - 1]) then 1 else 0)
  }

  lemma {:induction false} HeaderCountAppend(a: seq<string>, b: seq<string>)
    ensures HeaderCount(a + b) == HeaderCount(a) + HeaderCount(b)
    decreases |b|
  {
    if |b| == 0 {
      assert a + b == a;
    } else {
      assert (a + b)[..|a + b| - 1] == a + b[..|b| - 1];
      HeaderCountAppend(a, b[..|b| - 1]);
    }
  }

  lemma {:induction false} ItemLinesHaveNoHeader(items: seq<MenuItem>)
    ensures HeaderCount(ItemLines(items)) == 0
    decreases |items|
  {
    if |items| > 0 {
      var lines := ItemLines(items);
      assert lines[..|lines| - 1] == ItemLines(items[..|items| - 1]);
      ItemLinesHaveNoHeader(items[..|items| - 1]);
    }
  }

  /** A table with N meal categories renders exactly N menu headers. */
  lemma {:induction false} MenuHeaderCount(menu: seq<(string, seq<MenuItem>)>)
    ensures HeaderCount(MenuPieces(menu)) == |menu|
    decreases |menu|
  {
    if |menu| > 0 {
      var last := menu[|menu| - 1];
      MenuHeaderCount(menu[..|menu| - 1]);
      HeaderCountAppend(MenuPieces(menu[..|menu| - 1]), CategoryPieces(last));
      HeaderCountAppend([Header(last.0)], ItemLines(last.1));
      ItemLinesHaveNoHeader(last.1);
      assert [Header(last.0)][..0] == [];
    }
  }

  lemma MenuPiecesStep(menu: seq<(string, seq<MenuItem>)>, i: nat)
    requires i < |menu|
    ensures MenuPieces(menu[..i + 1]) == MenuPieces(menu[..i]) + [Header(menu[i].0)] + ItemLines(menu[i].1)
  {
    assert menu[..i + 1][..i] == menu[..i];
  }

  lemma ItemLinesStep(items: seq<MenuItem>, j: nat)
    requires j < |items|
    ensures ItemLines(items[..j + 1]) == ItemLines(items[..j]) + [ItemLine(items[j])]
  {
  }

  lemma ItemLinesConcatStep(items: seq<MenuItem>, j: nat, line: string)
    requires j < |items| && line == ItemLine(items[j])
    ensures Concat(ItemLines(items[..j + 1])) == Concat(ItemLines(items[..j])) + line
  {
    ItemLinesStep(items, j);
    ConcatSnoc(ItemLines(items[..j]), ItemLine(items[j]));
  }

  /** The inner menu loop: one line per dish, in list order. */
  method BuildItems(items: seq<MenuItem>) returns (s: string)
    ensures s == Concat(ItemLines(items))
  {
    s := "";
    var j := 0;
    while j < |items|
      invariant j <= |items|
      invariant s == Concat(ItemLines(items[..j]))
    {
      var line := ItemLine(items[j]);
      ItemLinesConcatStep(items, j, line);
      s := s + line;
      j := j + 1;
    }
    assert items[..j] == items;
  }

  /** The menu loop as written: an outer pass per category appending its
      header, an inner pass per dish appending its line. */
  method BuildMenu(menu: seq<(string, seq<MenuItem>)>) returns (s: string)
    ensures s == MenuText(menu)
  {
    s := "";
    var i := 0;
    while i < |menu|
      invariant i <= |menu|
      invariant s == Concat(MenuPieces(menu[..i]))
    {
      ghost var before := MenuPieces(menu[..i]);
      var header := Header(menu[i].0);
      ConcatSnoc(before, header);
      ConcatAppend(before + [header], ItemLines(menu[i].1));
      MenuPiecesStep(menu, i);
      var lines := BuildItems(menu[i].1);
      s := s + header + lines;
      i := i + 1;
    }
    assert menu[..i] == menu;
  }

  // ---------------------------------------------------------------------
  // Timings
  // ---------------------------------------------------------------------

  /** The key whose entry is skipped by the loop and appended last. */
  const ClosedKey := "closed"

  function TimingLine(meal: string, span: TimingValue): string
    requires span.Span?
  {
    "- " + Capitalize(meal) + ": " + span.start + " - " + span.end + "\n"
  }

  /** How an f-string shows the `closed` value: a note as its own text, a
      span as the repr of its two-key dictionary. */
  function ClosedText(value: TimingValue): string
  {
    match value
    case Note(text) => text
    case Span(start, end) => "{'start': '" + start + "', 'end': '" + end + "'}"
  }

  function ClosedLine(value: TimingValue): string
  {
    "- Closed: " + ClosedText(value) + "\n"
  }

  /** The timings loop: the lines of every entry except `closed`, or the
      error of the first entry that is not a span. */
  function MealLines(entries: seq<(string, TimingValue)>): Result<seq<string>, RenderError>
  {
    if |entries| == 0 then Ok([])
    else
      var (meal, value) := entries[|entries| - 1];
      match MealLines(entries[..|entries| - 1])
      case Err(e) => Err(e)
      case Ok(lines) =>
        if meal == ClosedKey then Ok(lines)
        else if value.Note? then Err(NotASpan(meal))
        else Ok(lines + [TimingLine(meal, value)])
  }

  /** The timings section: the meal lines, then the `closed` note. */
  function TimingsText(entries: seq<(string, TimingValue)>): Result<string, RenderError>
  {
    match MealLines(entries)
    case Err(e) => Err(e)
    case Ok(lines) =>
      match Lookup<TimingValue>(entries, ClosedKey)
      case None => Err(MissingKey("timings", ClosedKey))
      case Some(value) => Ok(Concat(lines + [ClosedLine(value)]))
  }

  /** The entries other than `closed`, in table order. */
  function Meals(entries: seq<(string, TimingValue)>): (r: seq<(string, TimingValue)>)
    ensures forall k :: 0 <= k < |r| ==> r[k].0 != ClosedKey
    ensures forall k :: 0 <= k < |r| ==> r[k] in entries
    ensures forall i :: 0 <= i < |entries| && entries[i].0 != ClosedKey ==> entries[i] in r
  {
    if |entries| == 0 then []
    else
      var rest := Meals(entries[..|entries| - 1]);
      assert forall i :: 0 <= i < |entries| - 1 ==> entries[i] == entries[..|entries| - 1][i];
      if entries[|entries| - 1].0 == ClosedKey then rest else rest + [entries[|entries| - 1]]
  }

  /** Every meal (non-`closed`) entry is an opening span. */
  predicate MealsAreSpans(entries: seq<(string, TimingValue)>)
  {
    forall i :: 0 <= i < |entries| && entries[i].0 != ClosedKey ==> entries[i].1.Span?
  }

  /** The position of the first meal entry that is not a span. */
  function FirstNonSpan(entries: seq<(string, TimingValue)>): (i: nat)
    requires !MealsAreSpans(entries)
    ensures i < |entries| && entries[i].0 != ClosedKey && entries[i].1.Note?
    ensures MealsAreSpans(entries[..i])
  {
    if MealsAreSpans(entries[..|entries| - 1]) then |entries| - 1
    else
      var i := FirstNonSpan(entries[..|entries| - 1]);
      assert entries[..i] == entries[..|entries| - 1][..i];
      i
  }

  /** The loop succeeds exactly when every meal entry is a span, and then
      emits one line per meal entry, in table order; otherwise it stops at
      the first entry that is not. */
  lemma {:induction false} MealLinesSpec(entries: seq<(string, TimingValue)>)
    ensures MealLines(entries).Ok? <==> MealsAreSpans(entries)
    ensures MealsAreSpans(entries) ==>
      var meals := Meals(entries);
      && |MealLines(entries).value| == |meals|
      && forall k :: 0 <= k < |meals| ==> meals[k].1.Span? && MealLines(entries).value[k] == TimingLine(meals[k].0, meals[k].1)
    ensures !MealsAreSpans(entries) ==> MealLines(entries) == Err(NotASpan(entries[FirstNonSpan(entries)].0))
    decreases |entries|
  {
    if |entries| > 0 {
      var n := |entries|;
      var init := entries[..n - 1];
      MealLinesSpec(init);
      assert forall i :: 0 <= i < n - 1 ==> init[i] == entries[i];
      if MealsAreSpans(entries) {
        assert MealsAreSpans(init);
      } else if !MealsAreSpans(init) {
        var i := FirstNonSpan(entries);
        assert entries[..i] == init[..i];
        assert i == FirstNonSpan(init);
      }
    }
  }

  /** The timings section renders exactly when every meal entry is a span
      and the `closed` key is there. Otherwise the error is, in this order:
      the first meal entry that is not a span, a missing `closed` key. */
  lemma TimingsOutcome(entries: seq<(string, TimingValue)>)
    ensures TimingsText(entries).Ok? <==> MealsAreSpans(entries) && ClosedKey in KeysOf(entries)
    ensures !MealsAreSpans(entries) ==> TimingsText(entries) == Err(NotASpan(entries[FirstNonSpan(entries)].0))
    ensures MealsAreSpans(entries) && ClosedKey !in KeysOf(entries) ==>
      TimingsText(entries) == Err(MissingKey("timings", ClosedKey))
  {
    MealLinesSpec(entries);
  }

  /** `lines` are one line per meal entry, in table order, then the line of
      the `closed` entry. */
  predicate TimingsLines(entries: seq<(string, TimingValue)>, lines: seq<string>)
  {
    && |lines| == |Meals(entries)| + 1
    && Lookup(entries, ClosedKey).Some?
    && lines[|lines| - 1] == ClosedLine(Lookup(entries, ClosedKey).value)
    && forall k :: 0 <= k < |lines| - 1 ==>
         Meals(entries)[k].1.Span? && lines[k] == TimingLine(Meals(entries)[k].0, Meals(entries)[k].1)
  }

  /** A rendered timings section is one line per meal entry in table
      order, followed by the `closed` line as its last line. */
  lemma TimingsLayout(entries: seq<(string, TimingValue)>)
    requires TimingsText(entries).Ok?
    ensures exists lines :: TimingsLines(entries, lines) && TimingsText(entries).value == Concat(lines)
  {
    MealLinesSpec(entries);
    var lines := MealLines(entries).value + [ClosedLine(Lookup(entries, ClosedKey).value)];
    assert TimingsLines(entries, lines);
    assert TimingsText(entries).value == Concat(lines);
  }

  // ---------------------------------------------------------------------
  // Payment methods
  // ---------------------------------------------------------------------

  function AvailabilityLabel(available: bool): string
  {
    if available then [Tick] + " Available" else [Cross] + " Not Available"
  }

  /** `- <name>: <label>`, and ` (<note>)` when the entry has a note. */
  function PaymentLine(p: Payment): string
  {
    "- " + p.name + ": " + AvailabilityLabel(p.available)
      + (match p.note case Some(note) => " (" + note + ")" case None => "")
  }

  function PaymentLines(payments: seq<Payment>): seq<string>
  {
    seq(|payments|, i requires 0 <= i < |payments| => PaymentLine(payments[i]))
  }

  /** The payment section: the lines joined by newlines. */
  function PaymentText(payments: seq<Payment>): string
  {
    Join("\n", PaymentLines(payments))
  }

  /** A payment line shows `: ` and then the tick right after the method
      name exactly when the method is available, with the words `Available`
      or `Not Available`; it ends there when the entry has no note, and
      otherwise with the note in parentheses. */
  lemma PaymentLineShape(p: Payment)
    ensures var line := PaymentLine(p);
      && line[..2] == "- " && line[2..2 + |p.name|] == p.name
      && line[|p.name| + 2..|p.name| + 4] == ": "
      && line[|p.name| + 4..|p.name| + 4 + |AvailabilityLabel(p.available)|]
         == (if p.available then [Tick] + " Available" else [Cross] + " Not Available")
      && |line| == |p.name| + 4 + |AvailabilityLabel(p.available)| + (if p.note.Some? then |p.note.value| + 3 else 0)
      && (line[|p.name| + 4] == Tick <==> p.available)
      && (line[|p.name| + 4] == Cross <==> !p.available)
      && (line[|line| - 1] == ')' <==> p.note.Some?)
      && (p.note.Some? ==> line[|line| - |p.note.value| - 3..] == " (" + p.note.value + ")")
  {
  }

  /** Available and unavailable methods always get different labels. */
  lemma LabelsDistinct(p: Payment, q: Payment)
    requires p.name == q.name && p.available != q.available
    ensures PaymentLine(p) != PaymentLine(q)
  {
    PaymentLineShape(p);
    PaymentLineShape(q);
  }

  /** The payment lines are newline-separated with no trailing newline: the
      text plus one newline is every line newline-terminated, and the text
      itself never ends with a newline. */
  lemma PaymentTextShape(payments: seq<Payment>)
    ensures |payments| == 0 ==> PaymentText(payments) == ""
    ensures |payments| > 0 ==>
      PaymentText(payments) + "\n" == Concat(Terminated("\n", PaymentLines(payments)))
    ensures |payments| > 0 ==> PaymentText(payments)[|PaymentText(payments)| - 1] != '\n'
  {
    if |payments| > 0 {
      var lines := PaymentLines(payments);
      JoinTerminated("\n", lines);
      JoinEndsWithLast("\n", lines);
      var last := payments[|payments| - 1];
      PaymentLineShape(last);
      var t := PaymentText(payments);
      assert t[|t| - 1] == lines[|lines| - 1][|lines[|lines| - 1]| - 1];
    }
  }

  // ---------------------------------------------------------------------
  // Dietary options
  // ---------------------------------------------------------------------

  /** A diet tag as shown: underscores become spaces, then title case. */
  function TagLabel(tag: string): string
  {
    Title(ReplaceChar(tag, '_', ' '))
  }

  /** `- <Tag>: <items joined by ", ">` and a newline. */
  function DietLine(tag: string, items: seq<string>): string
  {
    "- " + TagLabel(tag) + ": " + Join(", ", items) + "\n"
  }

  function DietLines(dietary: seq<(string, seq<string>)>): seq<string>
  {
    seq(|dietary|, i requires 0 <= i < |dietary| => DietLine(dietary[i].0, dietary[i].1))
  }

  /** The dietary section: one line per tag, in table order. */
  function DietaryText(dietary: seq<(string, seq<string>)>): string
  {
    Concat(DietLines(dietary))
  }

  /** The shown tag has no underscore left: each became a space that starts
      a new word; every other character keeps its letter, a letter being
      upper case exactly when it begins a word. */
  lemma TagLabelMeaning(tag: string)
    ensures var shown := TagLabel(tag);
      && |shown| == |tag|
      && (forall k :: 0 <= k < |tag| && tag[k] == '_' ==> shown[k] == ' ')
      && (forall k :: 0 <= k < |tag| ==> SameLetter(shown[k], tag[k]) || tag[k] == '_')
      && (forall k :: 0 <= k < |tag| && IsCased(tag[k]) ==>
            (IsUpper(shown[k]) <==> k == 0 || !IsCased(tag[k - 1])))
  {
    var spaced := ReplaceChar(tag, '_', ' ');
    TitleMeaning(spaced);
    assert forall k :: 0 <= k < |tag| ==> (IsCased(spaced[k]) <==> IsCased(tag[k]));
  }

  /** A dietary line lists its items in the given order, separated by
      `", "`, and ends with a newline; an empty list leaves nothing after
      the colon and space. */
  lemma DietLineItems(tag: string, items: seq<string>)
    ensures DietLine(tag, items)[|DietLine(tag, items)| - 1] == '\n'
    ensures |items| == 0 ==> DietLine(tag, items) == "- " + TagLabel(tag) + ": \n"
    ensures |items| > 0 ==>
      var prefix := "- " + TagLabel(tag) + ": ";
      prefix + Concat(Terminated(", ", items)) == DietLine(tag, items)[..|DietLine(tag, items)| - 1] + ", "
  {
    if |items| > 0 {
      JoinTerminated(", ", items);
      var line := DietLine(tag, items);
      assert line[..|line| - 1] == "- " + TagLabel(tag) + ": " + Join(", ", items);
    }
  }

  /** Each dietary line appears whole in the section, the lines in table
      order and back to back. */
  lemma DietaryLayout(dietary: seq<(string, seq<string>)>)
    ensures forall i :: 0 <= i < |dietary| ==>
      Occurs(DietLine(dietary[i].0, dietary[i].1), DietaryText(dietary), StartOf(DietLines(dietary), i))
    ensures forall i :: 0 <= i < |dietary| ==>
      StartOf(DietLines(dietary), i + 1) == StartOf(DietLines(dietary), i) + |DietLine(dietary[i].0, dietary[i].1)|
    ensures StartOf(DietLines(dietary), |dietary|) == |DietaryText(dietary)|
  {
    ConcatLayout(DietLines(dietary));
    assert DietLines(dietary)[..|dietary|] == DietLines(dietary);
  }

  // ---------------------------------------------------------------------
  // Facilities
  // ---------------------------------------------------------------------

  function FacilityLines(facilities: seq<string>): seq<string>
  {
    seq(|facilities|, i requires 0 <= i < |facilities| => "- " + facilities[i])
  }

  /** The facilities section: bulleted entries joined by newlines. */
  function FacilitiesText(facilities: seq<string>): string
  {
    Join("\n", FacilityLines(facilities))
  }

  /** The facilities are bulleted and newline-separated with no trailing
      newline: the text plus one newline is every bullet newline-terminated. */
  lemma FacilitiesShape(facilities: seq<string>)
    ensures |facilities| == 0 ==> FacilitiesText(facilities) == ""
    ensures |facilities| > 0 ==>
      FacilitiesText(facilities) + "\n" == Concat(Terminated("\n", FacilityLines(facilities)))
    ensures |facilities| > 0 ==> FacilitiesText(facilities)[..2] == "- "
  {
    if |facilities| > 0 {
      JoinTerminated("\n", FacilityLines(facilities));
      JoinStartsWithFirst("\n", FacilityLines(facilities));
    }
  }
}

=== FILE: strings.dfy ===
/** String building blocks of the renderer: joining, decimal rendering of
    integers, and the ASCII part of Python's case mapping. */
module Strings {
  import opened Wrappers

  // ---------------------------------------------------------------------
  // Concatenation and joining
  // ---------------------------------------------------------------------

  /** `"".join(parts)`: the pieces glued together in order. */
  function Concat(parts: seq<string>): string
  {
    if |parts| == 0 then "" else Concat(parts[..|parts| - 1]) + parts[|parts| - 1]
  }

  /** Concatenation is a homomorphism from sequence append to string append. */
  lemma {:induction false} ConcatAppend(a: seq<string>, b: seq<string>)
    ensures Concat(a + b) == Concat(a) + Concat(b)
    decreases |b|
  {
    if |b| == 0 {
      assert a + b == a;
    } else {
      var b' := b[..|b| - 1];
      assert (a + b)[..|a + b| - 1] == a + b';
      ConcatAppend(a, b');
    }
  }

  /** Appending one piece appends its text. */
  lemma ConcatSnoc(parts: seq<string>, piece: string)
    ensures Concat(parts + [piece]) == Concat(parts) + piece
  {
    assert (parts + [piece])[..|parts|] == parts;
  }

  /** Every piece sits, unchanged, between the concatenations of the pieces
      before it and the pieces after it. */
  lemma {:induction false} ConcatAt(parts: seq<string>, i: nat)
    requires i < |parts|
    ensures Concat(parts) == Concat(parts[..i]) + parts[i] + Concat(parts[i + 1..])
  {
    var before, after := parts[..i], parts[i + 1..];
    var upTo := parts[..i + 1];
    assert parts == upTo + after;
    ConcatAppend(upTo, after);
    assert upTo[..|upTo| - 1] == before;
  }

  /** `t` appears in `s` starting at index `at`. */
  predicate Occurs(t: string, s: string, at: nat)
  {
    at + |t| <= |s| && s[at..at + |t|] == t
  }

  /** Where piece `i` begins in the concatenation. */
  function StartOf(parts: seq<string>, i: nat): nat
    requires i <= |parts|
  {
    |Concat(parts[..i])|
  }

  /** Piece `i` appears in the concatenation at its start position, and the
      next piece begins where it ends. */
  lemma PieceOccurs(parts: seq<string>, i: nat)
    requires i < |parts|
    ensures Occurs(parts[i], Concat(parts), StartOf(parts, i))
    ensures StartOf(parts, i + 1) == StartOf(parts, i) + |parts[i]|
  {
    ConcatAt(parts, i);
    ConcatSnoc(parts[..i], parts[i]);
    assert parts[..i + 1] == parts[..i] + [parts[i]];
  }

  /** Every piece appears in the concatenation at its start position, and
      each piece begins where the previous one ends. */
  lemma ConcatLayout(parts: seq<string>)
    ensures forall i :: 0 <= i < |parts| ==> Occurs(parts[i], Concat(parts), StartOf(parts, i))
    ensures forall i :: 0 <= i < |parts| ==> StartOf(parts, i + 1) == StartOf(parts, i) + |parts[i]|
  {
    forall i | 0 <= i < |parts|
      ensures Occurs(parts[i], Concat(parts), StartOf(parts, i))
      ensures StartOf(parts, i + 1) == StartOf(parts, i) + |parts[i]|
    {
      PieceOccurs(parts, i);
    }
  }

  /** An occurrence of `a + b` is an occurrence of `a` followed by one of `b`. */
  lemma OccursSplit(a: string, b: string, s: string, at: nat)
    requires Occurs(a + b, s, at)
    ensures Occurs(a, s, at) && Occurs(b, s, at + |a|)
  {
    assert s[at..at + |a|] == (a + b)[..|a|];
    assert s[at + |a|..at + |a| + |b|] == (a + b)[|a|..];
  }

  /** Concatenating pieces of which at least one is non-empty gives a
      non-empty string. */
  lemma {:induction false} ConcatNonEmpty(parts: seq<string>, i: nat)
    requires i < |parts| && parts[i] != ""
    ensures Concat(parts) != ""
  {
    ConcatAt(parts, i);
  }

  /** `sep.join(parts)`: the pieces with `sep` between neighbours and no
      separator before the first or after the last. */
  function Join(sep: string, parts: seq<string>): string
  {
    if |parts| == 0 then ""
    else if |parts| == 1 then parts[0]
    else Join(sep, parts[..|parts| - 1]) + sep + parts[|parts| - 1]
  }

  /** Each piece followed by `sep`. */
  function Terminated(sep: string, parts: seq<string>): seq<string>
  {
    seq(|parts|, i requires 0 <= i < |parts| => parts[i] + sep)
  }

  /** Joining is terminating every piece and dropping the one trailing
      separator: `sep.join(xs) + sep == "".join(x + sep for x in xs)`. */
  lemma {:induction false} JoinTerminated(sep: string, parts: seq<string>)
    requires |parts| > 0
    ensures Join(sep, parts) + sep == Concat(Terminated(sep, parts))
    decreases |parts|
  {
    var n := |parts|;
    if n == 1 {
      assert Terminated(sep, parts) == [parts[0] + sep];
      assert Concat([parts[0] + sep]) == Concat([]) + (parts[0] + sep);
    } else {
      var init := parts[..n - 1];
      JoinTerminated(sep, init);
      assert Terminated(sep, parts) == Terminated(sep, init) + [parts[n - 1] + sep];
      ConcatAppend(Terminated(sep, init), [parts[n - 1] + sep]);
      assert Concat([parts[n - 1] + sep]) == Concat([]) + (parts[n - 1] + sep);
    }
  }

  /** The joined string ends with the last piece, so it ends with a separator
      only when the last piece does. */
  lemma {:induction false} JoinEndsWithLast(sep: string, parts: seq<string>)
    requires |parts| > 0
    ensures |Join(sep, parts)| >= |parts[|parts| - 1]|
    ensures Join(sep, parts)[|Join(sep, parts)| - |parts[|parts| - 1]|..] == parts[|parts| - 1]
  {
  }

  /** The joined string starts with the first piece. */
  lemma {:induction false} JoinStartsWithFirst(sep: string, parts: seq<string>)
    requires |parts| > 0
    ensures |Join(sep, parts)| >= |parts[0]|
    ensures Join(sep, parts)[..|parts[0]|] == parts[0]
    decreases |parts|
  {
    if |parts| > 1 {
      var init := parts[..|parts| - 1];
      JoinStartsWithFirst(sep, init);
      assert init[0] == parts[0];
    }
  }

  // ---------------------------------------------------------------------
  // Decimal rendering of integers (Python's `str(int)`)
  // ---------------------------------------------------------------------

  predicate IsDigit(c: char)
  {
    '0' <= c <= '9'
  }

  predicate AllDigits(s: string)
  {
    forall k :: 0 <= k < |s| ==> IsDigit(s[k])
  }

  function DigitChar(d: nat): (c: char)
    requires d < 10
    ensures IsDigit(c)
  {
    "0123456789"[d]
  }

  function DigitValue(c: char): (d: nat)
    requires IsDigit(c)
    ensures d < 10
  {
    c as int - '0' as int
  }

  /** The shortest decimal spelling of a natural number. */
  function NatDigits(n: nat): (r: string)
    ensures |r| > 0 && AllDigits(r)
    ensures r[0] == '0' ==> n == 0
    decreases n
  {
    if n < 10 then [DigitChar(n)] else NatDigits(n / 10) + [DigitChar(n % 10)]
  }

  /** The number a string of decimal digits denotes. */
  function DigitsValue(s: string): nat
    requires AllDigits(s)
  {
    if |s| == 0 then 0 else 10 * DigitsValue(s[..|s| - 1]) + DigitValue(s[|s| - 1])
  }

  lemma {:induction false} NatDigitsValue(n: nat)
    ensures DigitsValue(NatDigits(n)) == n
    decreases n
  {
    if n >= 10 {
      NatDigitsValue(n / 10);
      var s := NatDigits(n);
      assert s[..|s| - 1] == NatDigits(n / 10);
    }
  }

  /** Python's `str(i)` for an int: optional minus sign, then the digits,
      with no leading zero except in `0` itself. */
  function Decimal(i: int): (r: string)
    ensures |r| > 0
    ensures r[0] == '-' <==> i < 0
    ensures i >= 0 ==> AllDigits(r)
    ensures i >= 0 && r[0] == '0' ==> r == "0"
    ensures i < 0 ==> |r| > 1 && AllDigits(r[1..]) && r[1] != '0'
  {
    if i < 0 then "-" + NatDigits(-i) else NatDigits(i)
  }

  /** Reading a decimal back: digits with an optional leading minus give
      their value (leading zeros allowed), anything else gives `None`. */
  function ParseDecimal(s: string): Option<int>
  {
    if |s| > 0 && s[0] == '-' && |s| > 1 && AllDigits(s[1..]) then Some(-(DigitsValue(s[1..]) as int))
    else if |s| > 0 && AllDigits(s) then Some(DigitsValue(s))
    else None
  }

  lemma DecimalCanonical(i: int)
    ensures CanonicalDecimal(Decimal(i))
  {
    var s := Decimal(i);
    if i < 0 {
      assert s[0] == '-' && s[1] != '0';
    } else {
      assert AllDigits(s);
    }
  }

  /** A price rendered with `Decimal` is canonical and reads back as the
      same number. */
  lemma {:induction false} DecimalRoundTrip(i: int)
    ensures CanonicalDecimal(Decimal(i))
    ensures ParseDecimal(Decimal(i)) == Some(i)
  {
    DecimalCanonical(i);
    var s := Decimal(i);
    if i < 0 {
      var d := NatDigits(-i);
      assert s[1..] == d;
      ParseNegative(s);
      NatDigitsValue(-i);
    } else {
      ParseUnsigned(s);
      NatDigitsValue(i);
    }
  }

  /** How `ParseDecimal` reads a minus sign followed by digits. */
  lemma ParseNegative(s: string)
    requires |s| > 1 && s[0] == '-' && AllDigits(s[1..])
    ensures ParseDecimal(s) == Some(-(DigitsValue(s[1..]) as int))
  {
  }

  /** How `ParseDecimal` reads a string of digits. */
  lemma ParseUnsigned(s: string)
    requires |s| > 0 && AllDigits(s)
    ensures ParseDecimal(s) == Some(DigitsValue(s))
  {
  }

  /** A decimal text in the form `str(int)` gives: digits with no leading
      zero except in `0` itself, or a minus sign before a non-zero such
      number. */
  predicate CanonicalDecimal(s: string)
  {
    || (|s| > 0 && AllDigits(s) && (s[0] == '0' ==> s == "0"))
    || (|s| > 1 && s[0] == '-' && AllDigits(s[1..]) && s[1] != '0')
  }

  lemma {:induction false} DigitsPositive(s: string)
    requires |s| > 0 && AllDigits(s) && s[0] != '0'
    ensures DigitsValue(s) > 0
    decreases |s|
  {
    if |s| > 1 {
      DigitsPositive(s[..|s| - 1]);
    }
  }

  lemma {:induction false} NatDigitsOfValue(s: string)
    requires |s| > 0 && AllDigits(s) && (s[0] == '0' ==> s == "0")
    ensures NatDigits(DigitsValue(s)) == s
    decreases |s|
  {
    var c := s[|s| - 1];
    assert DigitChar(DigitValue(c)) == c;
    if |s| > 1 {
      var prefix := s[..|s| - 1];
      DigitsPositive(prefix);
      NatDigitsOfValue(prefix);
      var v := DigitsValue(s);
      assert v / 10 == DigitsValue(prefix) && v % 10 == DigitValue(c);
      assert s == prefix + [c];
    }
  }

  lemma NegativeDecimalOfValue(s: string)
    requires |s| > 1 && s[0] == '-' && AllDigits(s[1..]) && s[1] != '0'
    ensures Decimal(-(DigitsValue(s[1..]) as int)) == s
  {
    var d := s[1..];
    NatDigitsOfValue(d);
    DigitsPositive(d);
    assert s == "-" + d;
  }

  /** `Decimal` is the only canonical spelling of a number: a canonical
      text that reads back as `i` is `Decimal(i)`. */
  lemma DecimalUnique(s: string, i: int)
    requires CanonicalDecimal(s) && ParseDecimal(s) == Some(i)
    ensures s == Decimal(i)
  {
    if s[0] == '-' {
      ParseNegative(s);
      NegativeDecimalOfValue(s);
    } else {
      ParseUnsigned(s);
      NatDigitsOfValue(s);
    }
  }

  // ---------------------------------------------------------------------
  // ASCII case mapping
  // ---------------------------------------------------------------------

  predicate IsLower(c: char)
  {
    'a' <= c <= 'z'
  }

  predicate IsUpper(c: char)
  {
    'A' <= c <= 'Z'
  }

  /** A cased character: a letter that has an upper- and a lower-case form. */
  predicate IsCased(c: char)
  {
    IsLower(c) || IsUpper(c)
  }

  function UpperChar(c: char): (u: char)
    ensures !IsLower(u)
    ensures IsCased(u) <==> IsCased(c)
  {
    if IsLower(c) then (c as int - 32) as char else c
  }

  function LowerChar(c: char): (l: char)
    ensures !IsUpper(l)
    ensures IsCased(l) <==> IsCased(c)
  {
    if IsUpper(c) then (c as int + 32) as char else c
  }

  /** Two characters equal up to case. */
  predicate SameLetter(a: char, b: char)
  {
    LowerChar(a) == LowerChar(b)
  }

  /** `s.upper()`: the same letters, none left in lower case. */
  function Upper(s: string): (r: string)
    ensures |r| == |s|
    ensures forall k :: 0 <= k < |r| ==> !IsLower(r[k]) && SameLetter(r[k], s[k])
  {
    seq(|s|, k requires 0 <= k < |s| => UpperChar(s[k]))
  }

  /** `s.capitalize()`: the same letters, the first not in lower case and
      none of the others in upper case. */
  function Capitalize(s: string): (r: string)
    ensures |r| == |s|
    ensures |r| > 0 ==> !IsLower(r[0])
    ensures forall k :: 1 <= k < |r| ==> !IsUpper(r[k])
    ensures forall k :: 0 <= k < |r| ==> SameLetter(r[k], s[k])
  {
    seq(|s|, k requires 0 <= k < |s| => if k == 0 then UpperChar(s[k]) else LowerChar(s[k]))
  }

  /** The character `title()` emits for `c`, given whether the previous
      character was cased. */
  function TitleChar(c: char, afterCased: bool): char
  {
    if !IsCased(c) then c else if afterCased then LowerChar(c) else UpperChar(c)
  }

  /** `title()` as a left-to-right scan that remembers whether the previous
      character was cased. */
  function TitleScan(s: string, afterCased: bool): (r: string)
    ensures |r| == |s|
    decreases |s|
  {
    if |s| == 0 then "" else [TitleChar(s[0], afterCased)] + TitleScan(s[1..], IsCased(s[0]))
  }

  /** `s.title()`. */
  function Title(s: string): string
  {
    TitleScan(s, false)
  }

  /** Whether position `k` of `s` starts a word in the sense of `title()`:
      the first position, or one after an uncased character. */
  predicate StartsWord(s: string, k: nat)
    requires k < |s|
  {
    k == 0 || !IsCased(s[k - 1])
  }

  /** The pointwise meaning of the scan: a cased letter is upper case exactly
      when it starts a word, every letter keeps its identity, and uncased
      characters pass through. */
  predicate IsTitleOf(r: string, s: string)
  {
    && |r| == |s|
    && (forall k :: 0 <= k < |s| && IsCased(s[k]) ==> (IsUpper(r[k]) <==> StartsWord(s, k)))
    && (forall k :: 0 <= k < |s| ==> SameLetter(r[k], s[k]))
    && (forall k :: 0 <= k < |s| && !IsCased(s[k]) ==> r[k] == s[k])
  }

  lemma {:induction false} TitleScanSpec(s: string, afterCased: bool)
    ensures |TitleScan(s, afterCased)| == |s|
    ensures forall k :: 0 < k < |s| && IsCased(s[k]) ==>
      (IsUpper(TitleScan(s, afterCased)[k]) <==> !IsCased(s[k - 1]))
    ensures |s| > 0 && IsCased(s[0]) ==> (IsUpper(TitleScan(s, afterCased)[0]) <==> !afterCased)
    ensures forall k :: 0 <= k < |s| ==> SameLetter(TitleScan(s, afterCased)[k], s[k])
    ensures forall k :: 0 <= k < |s| && !IsCased(s[k]) ==> TitleScan(s, afterCased)[k] == s[k]
    decreases |s|
  {
    if |s| > 0 {
      var r := TitleScan(s, afterCased);
      var tail := TitleScan(s[1..], IsCased(s[0]));
      TitleScanSpec(s[1..], IsCased(s[0]));
      assert r == [TitleChar(s[0], afterCased)] + tail;
      forall k | 0 < k < |s|
        ensures r[k] == tail[k - 1] && s[k] == s[1..][k - 1]
      {
      }
    }
  }

  /** `title()` meets its pointwise description. */
  lemma TitleMeaning(s: string)
    ensures IsTitleOf(Title(s), s)
  {
    TitleScanSpec(s, false);
  }

  /** `s.replace(a, b)` for one-character `a` and `b`. */
  function ReplaceChar(s: string, a: char, b: char): string
  {
    seq(|s|, k requires 0 <= k < |s| => if s[k] == a then b else s[k])
  }
}

=== FILE: wrappers.dfy ===
/** Option and Result, used across the model. */
module Wrappers {

  /** A value that may be absent, as a missing dictionary key is. */
  datatype Option<+T> = None | Some(value: T)

  /** The outcome of an operation that can raise an error. */
  datatype Result<+T, +E> = Ok(value: T) | Err(error: E)
}
